=== FILE: README.md ===
# Merkle tree engine — a verified Dafny model

This project models the Merkle-tree engine of the repository (`core/`): the hash
rule of `core/hash_utils.py`, the node record of `core/merkle_node.py` (and its
copy at the top of `core/merkle_tree.py`, which is the one the tree uses), and the
`MerkleTree` class of `core/merkle_tree.py`. That class builds a binary hash tree
over a list of strings, reports its root, depth, height and leaf count, generates
an inclusion proof for a leaf, and verifies a proof against its own root.

Files:

- `wrappers.dfy`: the `Option` and `Result` datatypes.
- `hash_utils.dfy` (module `HashUtils`):
  - `sha256_hash` is a parameter `H: Hasher`; nothing in the model computes SHA-256;
  - `verify_hash` and `combine_hashes`;
  - the assumptions some lemmas make about `H`:
    - `Injective`, an idealised collision resistance;
    - `LengthUniform`: inputs of equal length have digests of equal length, as
      SHA-256's do.
  - SHA-256's fixed 64-character length is not assumed, because no function from
    all strings into the finite set of 64-character strings is injective. A lemma
    that needs two digests of equal length asks for exactly that. The identity
    meets both assumptions (`IdentityMeetsAssumptions`).
- `merkle_node.dfy` (module `Nodes`): a node as a value.
  - The constructor's `is_leaf` rule.
  - `get_hash_short`, with Python's slicing, negative lengths included.
  - `to_dict` and the `__repr__` text.
- `tree_spec.dfy` (module `TreeSpec`): the tree as values.
  - `Levels(H, data)` gives the hashes of the stored levels, leaves first. Every
    level below the top is padded, because `_build_tree` pads the list object it
    has already stored in `self.tree`.
  - `ProofFor(H, data, i)` gives the proof `generate_proof(i)` returns.
  - `Fold` and `Verifies` give the computation of `verify_proof`.
  - The engine's properties are proved here. The level-size law, the depth law,
    the proof length, the round trip and the missing domain separation hold over
    any `H`. Tamper detection holds over any injective `H`. Order sensitivity
    holds over any injective, length-uniform `H` whose digests of the two
    exchanged items have equal length.
- `merkle_tree.dfy` (module `Tree`): the class `MerkleTree`.
  - Its fields are `data`, `leaves`, `tree` and `root`.
  - Its methods are proved against `TreeSpec`, and they keep the same loops as the
    source: the leaf loop, the `while` loop that pads and pairs levels, the
    proof-generation loop and the verification loop.
  - `Valid()` says the stored levels carry exactly the hashes of
    `Levels(H, data)`. It also says:
    - each parent node of a level links to the pair below it;
    - a padding copy at the end of a level equals the node before it, children and
      flag included;
    - level 0 begins with the leaves in input order;
    - the root is the single node of the top level.

## Model

| member | source | states |
|---|---|---|
| `HashUtils.VerifyOwnDigest` | core/hash_utils.py:11-12 | the digest of a string always verifies against that string |
| `HashUtils.VerifyHashBindsData` | core/hash_utils.py:11-12 | under an injective digest, a hash verifies for at most one string |
| `HashUtils.VerifyHashExact` | core/hash_utils.py:11-12 | under an injective digest, the digest of `b` verifies `a` exactly when `a` is `b` |
| `HashUtils.CombineOrderSensitive` | core/hash_utils.py:15-17 | for two different hashes of equal length, combining them in the other order gives a different digest (left before right matters) |
| `HashUtils.LeafCollidesWithNode` | core/hash_utils.py:15-17 | no domain separation: hashing the text `l + r` as a leaf gives the same digest as the internal node over `l`, `r` |
| `Nodes.NewNodeConsistent` | core/merkle_node.py:3-8 | a constructed node is well formed, and both its dictionary and its text call it a leaf exactly when it has neither child |
| `Nodes.HashShort` | core/merkle_node.py:15-16 | a hash no longer than `length` is returned whole; a longer one becomes its first `length` characters followed by "..." (length `length + 3`); a negative `length` slices from the end as Python does |
| `Nodes.ToDict` | core/merkle_node.py:18-25 | the dictionary carries the hash, reports the node's leaf flag and whether each child is present; its preview is the whole hash up to 32 characters, otherwise the first 32 followed by "..." (35 in all); for a well-formed node it says leaf exactly when it reports no children |
| `Nodes.NodeRepr` | core/merkle_node.py:10-13 | the text is `MerkleNode(`, then "Leaf" exactly when the node is a leaf and "Internal" otherwise, then ": ", the 16-character preview `HashShort(hash, 16)` and `)` |
| `Nodes.ReprDeterminesKindAndPreview` | core/merkle_node.py:10-13 | the text can be read back: two nodes with the same text have the same kind and the same 16-character preview |
| `TreeSpec.LeafHashes` | core/merkle_tree.py:42-46 | one leaf hash per item, in input order: leaf `i` is the digest of item `i` |
| `TreeSpec.Parents` | core/merkle_tree.py:57-63 | pairing a level gives half as many nodes |
| `TreeSpec.ParentsIndex` | core/merkle_tree.py:57-63 | parent `j` is the combination of nodes `2j` and `2j + 1`, left first |
| `TreeSpec.ParentsSize` | core/merkle_tree.py:54-63 | padding then pairing a level of `m` nodes gives `ceil(m / 2)` nodes, fewer than `m` when `m > 1` |
| `TreeSpec.LevelsBottom` | core/merkle_tree.py:48-55 | stored level 0 is the leaf list, padded unless it is the only level; there is one level exactly when there is one item |
| `TreeSpec.TopLevelSize` | core/merkle_tree.py:51-68 | the loop stops at a top level with exactly one node |
| `TreeSpec.LevelsLinked` | core/merkle_tree.py:51-66 | every stored level above 0 is the pairing of the padded level below it (itself padded unless it is the top) |
| `TreeSpec.LevelCount` | core/merkle_tree.py:51-66 | the number of stored levels is `Depth(n)`: one, plus the levels above `ceil(n / 2)` nodes when `n > 1` |
| `TreeSpec.SizeShift` | core/merkle_tree.py:51-66 | the real node count of level `k + 1` over `n` leaves is that of level `k` over `ceil(n / 2)` leaves |
| `TreeSpec.DepthLaw` | core/merkle_tree.py:51-66 | `Depth(n) - 1` is `ceil(log2 n)`; the real node count is one at the top level and at least two below it |
| `TreeSpec.TreeDepthLaw` | core/merkle_tree.py:73-77 | a tree over `n` items stores `ceil(log2 n) + 1` levels |
| `TreeSpec.LevelsSizes` | core/merkle_tree.py:54-66 | below the top, stored level `k` holds its `Size(n, k)` real nodes plus one copy when that number is odd, so its length is even |
| `TreeSpec.LeafLevel` | core/merkle_tree.py:42-55 | stored level 0 begins with the digest of every item in order, followed by at most one copy of the last |
| `TreeSpec.ParentAt` | core/merkle_tree.py:57-63 | node `j` of level `k + 1` combines nodes `2j` and `2j + 1` of stored level `k` |
| `TreeSpec.ParentOf` | core/merkle_tree.py:57-66 | where a level is built from the one below, each of its nodes combines the pair below it |
| `TreeSpec.RealNodes` | core/merkle_tree.py:54-66 | below the top, stored level `k` is the padding of exactly `Size(n, k)` real nodes |
| `TreeSpec.OddLevelPairsLastWithItself` | core/merkle_tree.py:54-63 | on a level with an odd number `m` of real nodes, node `m` is a copy of node `m - 1`, and parent `(m - 1) / 2` combines that node with itself |
| `TreeSpec.PathIndexBound` | core/merkle_tree.py:89-102 | the path index `i_k` of a leaf stays below the real node count of level `k` |
| `TreeSpec.SiblingInRange` | core/merkle_tree.py:89-93 | below the top, the path node and its sibling both exist at every level, so the `sibling_index < len(level)` test always passes |
| `TreeSpec.ProofStepShape` | core/merkle_tree.py:89-102 | step `k` comes from level `k` and holds the hash of the sibling of `i_k`; its position is "right" exactly when `i_k` is even and "left" otherwise; it carries the 32-character preview |
| `TreeSpec.ProofLength` | core/merkle_tree.py:89-103 | a proof has one step per level below the root, which is `ceil(log2 n)` steps; it is empty exactly when there is one item |
| `TreeSpec.TopOfLevels` | core/merkle_tree.py:68 | the top stored level has exactly one node, the root |
| `TreeSpec.StepClimbs` | core/merkle_tree.py:114-117 | applying a step to a path node combines it with its sibling in the right order, giving the parent's pair |
| `TreeSpec.PathStep` | core/merkle_tree.py:110-117 | applying step `k` to the path node at level `k` gives the path node at level `k + 1` |
| `TreeSpec.FoldOneMore` | core/merkle_tree.py:110-117 | folding one more step applies that step to the running hash |
| `TreeSpec.FoldAlongPath` | core/merkle_tree.py:105-117 | folding the first `k` steps into the leaf's digest gives the hash of the path node at level `k` |
| `TreeSpec.ProofReachesRoot` | core/merkle_tree.py:105-118 | folding the whole proof of leaf `i` into the digest of item `i` gives the root hash |
| `TreeSpec.RoundTrip` | core/merkle_tree.py:105-118 | the proof of leaf `i` verifies for item `i` exactly when there are at least two items; a single-item tree never verifies its own item |
| `TreeSpec.FoldInjective` | core/merkle_tree.py:110-117 | under an injective digest, folding one proof from two different start hashes gives two different results |
| `TreeSpec.ProofBindsLeaf` | core/merkle_tree.py:105-118 | under an injective digest, two strings that verify with the same proof against the same root are equal |
| `TreeSpec.TamperDetected` | core/merkle_tree.py:105-118 | under an injective digest, any string other than item `i` fails to verify with the proof of leaf `i` |
| `TreeSpec.TwoLeafRoot` | core/merkle_tree.py:57-68 | the root over two items is the combination of their digests |
| `TreeSpec.TopDeterminesLevel` | core/merkle_tree.py:48-66 | under an injective, length-uniform digest, two levels of the same shape that are built up to the same top node are equal |
| `TreeSpec.ParentsInjective` | core/merkle_tree.py:57-63 | under an injective digest, two even levels of the same shape with the same parents are equal |
| `TreeSpec.RootDeterminesLeaves` | core/merkle_tree.py:41-68 | under an injective, length-uniform digest, two lists of equally many items with the same root, whose items' digests have pairwise equal lengths, have the same leaf digests |
| `TreeSpec.SwapChangesRoot` | core/merkle_tree.py:41-68 | the root depends on the order of the data: in a list of any length, exchanging two different items changes the root (injective, length-uniform digest giving the two items digests of equal length) |
| `TreeSpec.SecondPreimage` | core/merkle_tree.py:43-61 | no domain separation: the one-item tree over `H(x) + H(y)` has the same root as the two-item tree over `x`, `y` |
| `Tree.PaddingKeepsLinked` | core/merkle_tree.py:54-55 | padding the top stored level with a copy of its last node keeps every link, every node of level 0 in place, and every padding copy equal to the node before it |
| `Tree.AppendKeepsLinked` | core/merkle_tree.py:57-65 | appending the parents of the top level keeps every link |
| `Tree.MerkleTree.Create` | core/merkle_tree.py:31-39 | an empty list is refused with `EmptyData`; any other list gives a fresh, valid tree over exactly that list |
| `Tree.MerkleTree.constructor` | core/merkle_tree.py:31-39 | a non-empty list builds a valid tree over that list |
| `Tree.MerkleTree.BuildTree` | core/merkle_tree.py:41-68 | after the build the object is valid for its data: leaves, stored levels, links and root as `Valid()` states |
| `Tree.MerkleTree.MakeLeaves` | core/merkle_tree.py:42-46 | one leaf node per item, holding the item's digest, in order |
| `Tree.MerkleTree.PairUpward` | core/merkle_tree.py:48-66 | the stored levels carry exactly the hashes of `Levels`, are linked (padding copies included), begin with the leaves and end in one node |
| `Tree.MerkleTree.PairLevel` | core/merkle_tree.py:57-63 | pairing an even level gives half as many parent nodes, whose hashes are the combined pair hashes and whose children are that pair |
| `Tree.MerkleTree.GetRootHash` | core/merkle_tree.py:70-71 | the root hash of the tree over the data |
| `Tree.MerkleTree.GetTreeDepth` | core/merkle_tree.py:73-74 | the number of stored levels (`TreeDepthLaw`: `ceil(log2 n) + 1`) |
| `Tree.MerkleTree.GetTreeHeight` | core/merkle_tree.py:76-77 | one less than the number of stored levels |
| `Tree.MerkleTree.GetLeafCount` | core/merkle_tree.py:79-80 | the number of items |
| `Tree.MerkleTree.GenerateProof` | core/merkle_tree.py:82-103 | no proof exactly when the index is outside `0 .. n - 1`; otherwise exactly `ProofFor(H, data, i)` |
| `Tree.MerkleTree.VerifyProof` | core/merkle_tree.py:105-118 | exactly `Verifies` against this tree's own root: an empty proof is false, otherwise the fold from the leaf's digest must reach the root; the tree is not changed |

## Left out

- `core/merkle_tree.py` `print_tree` and `get_statistics` are not modelled. They only format text and report floating-point `log2` values with constant labels.
- `app.py`, `static/script.js` and `core/__init__.py` are not part of this model. They are HTTP routing, browser UI and re-exports.
- SHA-256 and the UTF-8 encoding of the input (core/hash_utils.py:7-8) are a call into `hashlib`. The model takes the digest as a parameter `H`.
  - Only the lemmas that need them assume that `H` is injective (`Injective`) or gives equal-length digests to equal-length inputs (`LengthUniform`). SHA-256's fixed 64-character length is not assumed, since it cannot hold together with injectivity; `SwapChangesRoot` asks only that its two items have digests of equal length.
  - The `str()` coercion of non-string input (core/hash_utils.py:4-5) cannot arise with typed strings.
- A proof step is a datatype. A malformed step dictionary (a missing key raises `KeyError` in the source) cannot be represented.
- Nodes are values. The model does not capture object identity: the padding copy at the end of a level is the same object as the node before it (the model states only that the two are equal values), and a parent holds references to its children.
- `get_root_hash` (core/merkle_tree.py:71) and `_build_tree` (core/merkle_tree.py:68) have a "no root" branch. It cannot occur once the constructor has returned, so `GetRootHash` always returns `Some` and `BuildTree` always sets a root. `verify_proof` reads the root unconditionally (core/merkle_tree.py:118); `VerifyProof` requires a valid (built) tree.
- Behaviour of the source worth knowing, which the model follows:
  - `verify_proof` compares with the tree's own root, not a root supplied by the caller.
  - `verify_proof` rejects an empty proof, so a single-item tree never verifies its own item.
  - `verify_proof` treats any position other than "right" as left.
  - `generate_proof` returns `None` for an index out of range instead of raising an error.
  - `generate_proof` skips a missing sibling rather than using the node itself. The model proves that the sibling always exists, so the skip never happens.
  - Leaf and internal hashes have no domain-separation rule (`LeafCollidesWithNode`, `SecondPreimage`).

=== FILE: hash_utils.dfy ===
/** The hash rule of the engine (core/hash_utils.py).

    SHA-256 itself is not modelled: every operation takes the digest function as a
    parameter `H`, standing for `sha256_hash`. Nothing is assumed about `H` unless a
    lemma names an assumption in its `requires`. The assumptions some lemmas make are:
      - `Injective(H)`: distinct inputs have distinct digests, an idealisation of
        collision resistance used for tamper detection and order sensitivity;
      - `LengthUniform(H)`: inputs of equal length have digests of equal length, as
        SHA-256's do.
    SHA-256's fixed digest length is NOT assumed: no function from all strings into
    the finite set of 64-character strings is injective, so it could never hold
    together with `Injective`. Where a proof needs two digests of equal length, the
    lemma asks for just those two. */
module HashUtils {

  /** A digest function from text to its digest text. */
  type Hasher = string -> string

  /** `a` and `b` have the same digest. */
  ghost predicate Collide(H: Hasher, a: string, b: string)
  {
    H(a) == H(b)
  }

  /** `a` and `b` have digests of the same length. */
  ghost predicate SameDigestLength(H: Hasher, a: string, b: string)
  {
    |H(a)| == |H(b)|
  }

  /** Assumption: `H` never maps two different strings to the same digest. (The
      quantifier fires only where a proof names a collision, through `InjectiveAt`.) */
  ghost predicate Injective(H: Hasher)
  {
    forall a, b {:trigger Collide(H, a, b)} :: Collide(H, a, b) ==> a == b
  }

  /** Assumption: inputs of equal length have digests of equal length. (The
      quantifier fires only through `LengthUniformAt`.) */
  ghost predicate LengthUniform(H: Hasher)
  {
    forall a, b {:trigger SameDigestLength(H, a, b)} :: |a| == |b| ==> SameDigestLength(H, a, b)
  }

  /** Using injectivity on one pair of inputs. */
  lemma InjectiveAt(H: Hasher, a: string, b: string)
    requires Injective(H) && H(a) == H(b)
    ensures a == b
  {
    assert Collide(H, a, b);
  }

  /** Using length uniformity on one pair of inputs. */
  lemma LengthUniformAt(H: Hasher, a: string, b: string)
    requires LengthUniform(H) && |a| == |b|
    ensures |H(a)| == |H(b)|
  {
    assert SameDigestLength(H, a, b);
  }

  /** The assumptions can be met together, for instance by the identity. */
  lemma IdentityMeetsAssumptions()
    ensures Injective((s: string) => s)
    ensures LengthUniform((s: string) => s)
  {
  }

  /** `verify_hash`: does `hash` equal the digest of `data`? Its properties are the
      lemmas `VerifyOwnDigest`, `VerifyHashBindsData` and `VerifyHashExact`. */
  function VerifyHash(H: Hasher, data: string, hash: string): bool
  {
    H(data) == hash
  }

  /** `combine_hashes`: the digest of the left hash followed by the right hash. */
  function CombineHashes(H: Hasher, left: string, right: string): string
  {
    H(left + right)
  }

  /** The digest of a string always verifies against that string. */
  lemma VerifyOwnDigest(H: Hasher, data: string)
    ensures VerifyHash(H, data, H(data))
  {
  }

  /** Under injectivity, a digest verifies for exactly one string. */
  lemma {:induction false} VerifyHashBindsData(H: Hasher, a: string, b: string, hash: string)
    requires Injective(H)
    requires VerifyHash(H, a, hash) && VerifyHash(H, b, hash)
    ensures a == b
  {
    InjectiveAt(H, a, b);
  }

  /** Under injectivity, the digest of `b` verifies `a` exactly when `a` is `b`. */
  lemma VerifyHashExact(H: Hasher, a: string, b: string)
    requires Injective(H)
    ensures VerifyHash(H, a, H(b)) <==> a == b
  {
    if VerifyHash(H, a, H(b)) {
      VerifyOwnDigest(H, b);
      VerifyHashBindsData(H, a, b, H(b));
    }
  }

  /** Combination is order sensitive: for two different hashes of the same length,
      swapping the arguments hashes a different string, so (under injectivity) gives
      a different digest. */
  lemma CombineOrderSensitive(H: Hasher, a: string, b: string)
    requires Injective(H)
    requires |a| == |b| && a != b
    ensures CombineHashes(H, a, b) != CombineHashes(H, b, a)
  {
    if CombineHashes(H, a, b) == CombineHashes(H, b, a) {
      InjectiveAt(H, a + b, b + a);
      PrefixCancel(a, b, b, a);
    }
  }

  /** Two concatenations with equally long first parts agree part by part. */
  lemma PrefixCancel(a: string, b: string, c: string, d: string)
    requires |a| == |c| && a + b == c + d
    ensures a == c && b == d
  {
    assert a == (a + b)[..|a|];
    assert c == (c + d)[..|c|];
    assert b == (a + b)[|a|..];
    assert d == (c + d)[|c|..];
  }

  /** No domain separation: a leaf whose text is `l + r` has the same digest as the
      internal node over `l` and `r`. */
  lemma LeafCollidesWithNode(H: Hasher, l: string, r: string)
    ensures H(l + r) == CombineHashes(H, l, r)
  {
  }
}

=== FILE: merkle_node.dfy ===
/** The node record (core/merkle_node.py, and its verbatim copy at the top of
    core/merkle_tree.py, which is the one the tree uses). A node is built once and
    never changed, so it is a value. */
module Nodes {
  import opened Wrappers

  /** A tree node: its hash, its optional children and the `is_leaf` flag that the
      constructor computes. */
  datatype MerkleNode = MerkleNode(hash: string, left: Option<MerkleNode>, right: Option<MerkleNode>, isLeaf: bool)

  /** A node whose flag agrees with its children, as every constructed node does. */
  ghost predicate WellFormed(n: MerkleNode)
  {
    n.isLeaf <==> n.left.None? && n.right.None?
  }

  /** `MerkleNode.__init__`: stores the hash and children; a node is a leaf exactly
      when it has neither child (see `NewNodeConsistent`). */
  function NewNode(hash: string, left: Option<MerkleNode>, right: Option<MerkleNode>): MerkleNode
  {
    MerkleNode(hash, left, right, left.None? && right.None?)
  }

  /** A constructed node is well formed, and its dictionary and its text agree with
      its children: both call it a leaf exactly when it has neither child. */
  lemma NewNodeConsistent(hash: string, left: Option<MerkleNode>, right: Option<MerkleNode>)
    ensures WellFormed(NewNode(hash, left, right))
    ensures ToDict(NewNode(hash, left, right)).isLeaf <==>
            !ToDict(NewNode(hash, left, right)).hasLeft && !ToDict(NewNode(hash, left, right)).hasRight
    ensures NodeRepr(NewNode(hash, left, right))[11..15] == "Leaf" <==> left.None? && right.None?
  {
    var n := NewNode(hash, left, right);
    assert n.isLeaf <==> NodeRepr(n)[11..15] == "Leaf";
  }

  function Max(a: int, b: int): int { if a < b then b else a }

  /** The default `length` of `get_hash_short`, also the preview length of `__repr__`. */
  const DefaultShortLength: int := 16

  /** `get_hash_short(length)`: a preview of a hash. A hash longer than `length` is cut
      to Python's `hash[:length]` and marked with "..."; a shorter one is returned whole.
      A negative `length` counts from the end, as Python slicing does. */
  function HashShort(hash: string, length: int): (s: string)
    ensures |hash| <= length ==> s == hash
    ensures 0 <= length < |hash| ==>
      |s| == length + 3 && s[..length] == hash[..length] && s[length..] == "..."
    ensures length < 0 ==> s == hash[..Max(0, |hash| + length)] + "..."
    ensures 0 <= length ==> |s| <= length + 3 || s == hash
  {
    if |hash| > length then
      (if length >= 0 then hash[..length] else hash[..Max(0, |hash| + length)]) + "..."
    else
      hash
  }

  /** The dictionary that `to_dict` returns. */
  datatype NodeDict = NodeDict(hash: string, isLeaf: bool, hashShort: string, hasLeft: bool, hasRight: bool)

  /** `to_dict`: the node's hash and flag, a 32-character preview and whether each
      child is present. The preview is the whole hash when it is short, otherwise its
      first 32 characters and "..."; a constructed node's dictionary says leaf exactly
      when it reports no children. */
  function ToDict(n: MerkleNode): (d: NodeDict)
    ensures d.hash == n.hash
    ensures |n.hash| <= 32 ==> d.hashShort == n.hash
    ensures |n.hash| > 32 ==> |d.hashShort| == 35 && d.hashShort == n.hash[..32] + "..."
    ensures d.isLeaf == n.isLeaf && (d.hasLeft <==> n.left.Some?) && (d.hasRight <==> n.right.Some?)
    ensures WellFormed(n) ==> (d.isLeaf <==> !d.hasLeft && !d.hasRight)
  {
    NodeDict(n.hash, n.isLeaf, HashShort(n.hash, 32), n.left.Some?, n.right.Some?)
  }

  /** `__repr__`: "MerkleNode(Leaf: …)" or "MerkleNode(Internal: …)" with a
      16-character preview of the hash. */
  function NodeRepr(n: MerkleNode): (r: string)
    ensures |r| >= 18 && r[..11] == "MerkleNode(" && r[|r| - 1] == ')'
    ensures n.isLeaf <==> r[11..15] == "Leaf"
    ensures n.isLeaf ==> r[15..17] == ": " && r[17..|r| - 1] == HashShort(n.hash, DefaultShortLength)
    ensures !n.isLeaf ==> |r| >= 22 && r[11..19] == "Internal" && r[19..21] == ": " &&
                          r[21..|r| - 1] == HashShort(n.hash, DefaultShortLength)
  {
    var kind := if n.isLeaf then "Leaf" else "Internal";
    var preview := HashShort(n.hash, DefaultShortLength);
    var r := "MerkleNode(" + kind + ": " + preview + ")";
    SliceOfConcat("MerkleNode(" + kind + ": ", preview, ")");
    SliceOfConcat("MerkleNode(" + kind, ": ", preview + ")");
    SliceOfConcat("MerkleNode(", kind, ": " + preview + ")");
    assert r[11..15] == kind[..4];
    assert r[11..15][0] == kind[0];
    r
  }

  /** The middle part of a three-part concatenation is found at its offset. */
  lemma SliceOfConcat(pre: string, mid: string, post: string)
    ensures (pre + mid + post)[|pre|..|pre| + |mid|] == mid
    ensures pre + mid + post == pre + (mid + post)
  {
    var s := pre + mid + post;
    assert forall i :: 0 <= i < |mid| ==> s[|pre|..|pre| + |mid|][i] == mid[i];
  }

  /** The text of a node can be read back: two nodes with the same text have the same
      kind and the same 16-character preview. */
  lemma {:induction false} ReprDeterminesKindAndPreview(a: MerkleNode, b: MerkleNode)
    requires NodeRepr(a) == NodeRepr(b)
    ensures a.isLeaf == b.isLeaf
    ensures HashShort(a.hash, DefaultShortLength) == HashShort(b.hash, DefaultShortLength)
  {
    var r := NodeRepr(a);
    assert a.isLeaf <==> r[11..15] == "Leaf";
    assert b.isLeaf <==> r[11..15] == "Leaf";
  }
}

=== FILE: merkle_tree.dfy ===
/** The tree object (`MerkleTree` in core/merkle_tree.py): built once from the data
    list by a loop that pads and pairs levels in place, then read by the getters, by
    `generate_proof` and by `verify_proof`. Each operation is proved against the
    functions of TreeSpec. */
module Tree {
  import opened Wrappers
  import opened HashUtils
  import opened Nodes
  import opened TreeSpec

  /** The `ValueError` raised for an empty data list. */
  datatype BuildError = EmptyData

  /** The hashes of a level of nodes. */
  function HashesOf(level: seq<MerkleNode>): seq<string>
  {
    seq(|level|, i requires 0 <= i < |level| => level[i].hash)
  }

  /** The hashes of every stored level. */
  function TreeHashes(tree: seq<seq<MerkleNode>>): seq<seq<string>>
  {
    seq(|tree|, k requires 0 <= k < |tree| => HashesOf(tree[k]))
  }

  /** Every node of `level` from position `m` on is a copy of node `m - 1`: the
      padding of an odd level repeats its last node, children and flag included. */
  ghost predicate CopiesFrom(level: seq<MerkleNode>, m: nat)
  {
    forall j :: m <= j < |level| ==> 0 < m && level[j] == level[m - 1]
  }

  /** Each of the first `|lower| / 2` nodes of `upper` is an internal node whose
      children are the pair of `lower` below it; any node after them is a padding
      copy. */
  ghost predicate Pairs(lower: seq<MerkleNode>, upper: seq<MerkleNode>)
  {
    && |lower| / 2 <= |upper|
    && (forall j :: 0 <= j < |lower| / 2 ==>
         upper[j].left == Some(lower[2 * j]) && upper[j].right == Some(lower[2 * j + 1]) && !upper[j].isLeaf)
    && CopiesFrom(upper, |lower| / 2)
  }

  ghost predicate PairsAt(tree: seq<seq<MerkleNode>>, k: nat)
    requires k + 1 < |tree|
  {
    Pairs(tree[k], tree[k + 1])
  }

  /** The node links of the stored levels: level 0 holds leaves, and every higher
      level holds the parents of the pairs of the level below. */
  ghost predicate Linked(tree: seq<seq<MerkleNode>>)
  {
    && |tree| >= 1
    && (forall j :: 0 <= j < |tree[0]| ==> tree[0][j].isLeaf && tree[0][j].left.None? && tree[0][j].right.None?)
    && (forall k :: 0 <= k < |tree| - 1 ==> PairsAt(tree, k))
  }

  /** Padding a level of nodes pads its hashes. */
  lemma PaddingHashes(level: seq<MerkleNode>)
    requires |level| % 2 != 0
    ensures HashesOf(level + [level[|level| - 1]]) == Padded(HashesOf(level))
  {
  }

  lemma TreeHashesSnoc(tree: seq<seq<MerkleNode>>, level: seq<MerkleNode>)
    ensures TreeHashes(tree + [level]) == TreeHashes(tree) + [HashesOf(level)]
  {
  }

  /** Appending a copy of the last node keeps every copy after position `m`. */
  lemma PadKeepsCopies(level: seq<MerkleNode>, m: nat)
    requires CopiesFrom(level, m) && m <= |level| && |level| >= 1
    ensures CopiesFrom(level + [level[|level| - 1]], m)
  {
    var padded := level + [level[|level| - 1]];
    if m == |level| {
      assert padded[m] == level[m - 1];
    } else {
      assert 0 < m && level[|level| - 1] == level[m - 1];
    }
    forall j | m <= j < |padded|
      ensures 0 < m && padded[j] == padded[m - 1]
    {
      if j < |level| {
        assert level[j] == level[m - 1];
      }
    }
  }

  /** Padding the top stored level with a copy of its last node keeps the links, and
      keeps every node of level 0 in place. */
  lemma PaddingKeepsLinked(done: seq<seq<MerkleNode>>, top: seq<MerkleNode>, n: nat)
    requires Linked(done + [top])
    requires |top| >= 1
    requires n <= |(done + [top])[0]|
    requires CopiesFrom((done + [top])[0], n)
    ensures Linked(done + [top + [top[|top| - 1]]])
    ensures n <= |(done + [top + [top[|top| - 1]]])[0]|
    ensures (done + [top + [top[|top| - 1]]])[0][..n] == (done + [top])[0][..n]
    ensures CopiesFrom((done + [top + [top[|top| - 1]]])[0], n)
  {
    var tree := done + [top];
    var padded := done + [top + [top[|top| - 1]]];
    forall k | 0 <= k < |padded| - 1
      ensures PairsAt(padded, k)
    {
      assert PairsAt(tree, k);
      assert padded[k] == tree[k];
      if k + 1 == |done| {
        assert padded[k + 1] == tree[k + 1] + [top[|top| - 1]];
        PadKeepsCopies(top, |tree[k]| / 2);
      } else {
        assert padded[k + 1] == tree[k + 1];
      }
    }
    if done == [] {
      assert padded[0] == tree[0] + [top[|top| - 1]];
      PadKeepsCopies(top, n);
    } else {
      assert padded[0] == tree[0];
    }
  }

  /** Adding a level of parents of the top level's pairs keeps the links. */
  lemma AppendKeepsLinked(tree: seq<seq<MerkleNode>>, next: seq<MerkleNode>)
    requires Linked(tree)
    requires Pairs(tree[|tree| - 1], next)
    ensures Linked(tree + [next]) && (tree + [next])[0] == tree[0]
  {
    var grown := tree + [next];
    forall k | 0 <= k < |grown| - 1
      ensures PairsAt(grown, k)
    {
      if k + 1 < |tree| {
        assert PairsAt(tree, k);
      }
    }
  }

  /** One round of the build keeps the stored hashes on track: storing the padded
      level and moving up to its parents leaves the same levels still to build. */
  lemma HashesStep(H: Hasher, target: seq<seq<string>>, below: seq<seq<MerkleNode>>, hashes: seq<string>,
                   padded: seq<MerkleNode>, next: seq<MerkleNode>)
    requires |hashes| > 1
    requires TreeHashes(below) + LevelsFrom(H, hashes) == target
    requires HashesOf(padded) == Padded(hashes)
    requires HashesOf(next) == Parents(H, HashesOf(padded))
    ensures TreeHashes(below + [padded]) + LevelsFrom(H, HashesOf(next)) == target
  {
    var rest := LevelsFrom(H, HashesOf(next));
    assert LevelsFrom(H, hashes) == [Padded(hashes)] + rest;
    TreeHashesSnoc(below, padded);
    assert TreeHashes(below + [padded]) == TreeHashes(below) + [Padded(hashes)];
    SnocThenAppend(TreeHashes(below), Padded(hashes), rest);
  }

  lemma SnocThenAppend<T>(a: seq<T>, x: T, b: seq<T>)
    ensures (a + [x]) + b == a + ([x] + b)
  {
  }

  /** The state of a built tree over `data` (see `MerkleTree.Valid`). */
  ghost predicate Built(H: Hasher, data: seq<string>, leaves: seq<MerkleNode>,
                        tree: seq<seq<MerkleNode>>, root: Option<MerkleNode>)
  {
    && |data| >= 1
    && |leaves| == |data|
    && (forall i :: 0 <= i < |leaves| ==> leaves[i] == NewNode(H(data[i]), None, None))
    && TreeHashes(tree) == Levels(H, data)
    && Linked(tree)
    && |leaves| <= |tree[0]| && tree[0][..|leaves|] == leaves
    && CopiesFrom(tree[0], |leaves|)
    && |tree[|tree| - 1]| == 1
    && root == Some(tree[|tree| - 1][0])
  }

  /** The leaves of the items, paired upward, give a built tree. */
  lemma BuiltFromLeaves(H: Hasher, data: seq<string>, leaves: seq<MerkleNode>, tree: seq<seq<MerkleNode>>)
    requires |data| >= 1 && |leaves| == |data|
    requires forall j :: 0 <= j < |data| ==> leaves[j] == NewNode(H(data[j]), None, None)
    requires HashesOf(leaves) == LeafHashes(H, data)
    requires TreeHashes(tree) == LevelsFrom(H, HashesOf(leaves))
    requires Linked(tree)
    requires |leaves| <= |tree[0]| && tree[0][..|leaves|] == leaves
    requires CopiesFrom(tree[0], |leaves|)
    requires |tree[|tree| - 1]| == 1
    ensures Built(H, data, leaves, tree, Some(tree[|tree| - 1][0]))
  {
  }

  class MerkleTree {
    /** The digest function (`sha256_hash`). */
    const H: Hasher
    /** `self.data`: the input items. */
    var data: seq<string>
    /** `self.leaves`: one leaf node per item. */
    var leaves: seq<MerkleNode>
    /** `self.tree`: the stored levels, leaves first. */
    var tree: seq<seq<MerkleNode>>
    /** `self.root`: the single node of the top level. */
    var root: Option<MerkleNode>

    /** The state after a build: the leaves are the items' digests in order, the stored
        levels carry exactly the hashes of `Levels`, the nodes are linked to their
        children, and the root is the one node of the top level. */
    ghost predicate Valid()
      reads this
    {
      Built(H, data, leaves, tree, root)
    }

    /** `MerkleTree(data)` for a non-empty list; `Create` is the entry point that also
        handles the empty list. */
    constructor (hasher: Hasher, items: seq<string>)
      requires |items| >= 1
      ensures Valid() && H == hasher && data == items
    {
      H := hasher;
      data := items;
      leaves := [];
      tree := [];
      root := None;
      new;
      BuildTree();
    }

    /** `MerkleTree(data)`: an empty list is refused with an error, any other list
        builds a tree over it. */
    static method Create(hasher: Hasher, items: seq<string>) returns (r: Result<MerkleTree, BuildError>)
      ensures r.Err? <==> items == []
      ensures r.Ok? ==> fresh(r.value) && r.value.Valid() && r.value.H == hasher && r.value.data == items
    {
      if items == [] {
        return Err(EmptyData);
      }
      var t := new MerkleTree(hasher, items);
      return Ok(t);
    }

    /** `_build_tree`: digest every item into a leaf, then pair the current level
        until one node remains. An odd level is padded with a copy of its last node,
        and since the current level is the list already stored in `tree`, the stored
        level is padded too. */
    method BuildTree()
      requires |data| >= 1
      modifies this
      ensures Valid() && data == old(data)
    {
      var nodes := MakeLeaves(data);
      var levels := PairUpward(nodes);
      BuiltFromLeaves(H, data, nodes, levels);
      leaves := nodes;
      tree := levels;
      root := Some(levels[|levels| - 1][0]);
    }

    /** The first loop of `_build_tree`: one leaf node per item, holding its digest. */
    method MakeLeaves(items: seq<string>) returns (nodes: seq<MerkleNode>)
      ensures |nodes| == |items|
      ensures forall j :: 0 <= j < |items| ==> nodes[j] == NewNode(H(items[j]), None, None)
      ensures HashesOf(nodes) == LeafHashes(H, items)
    {
      nodes := [];
      for i := 0 to |items|
        invariant |nodes| == i
        invariant forall j :: 0 <= j < i ==> nodes[j] == NewNode(H(items[j]), None, None)
      {
        nodes := nodes + [NewNode(H(items[i]), None, None)];
      }
    }

    /** The `while` loop of `_build_tree`: starting from a copy of the leaves, pad the
        current level when it is odd and pair it into the next level, until one node
        remains. `done + [current]` plays `self.tree`: `current` is always its last
        element, so padding `current` pads the stored level as well. */
    method PairUpward(leaves: seq<MerkleNode>) returns (levels: seq<seq<MerkleNode>>)
      requires |leaves| >= 1
      requires forall j :: 0 <= j < |leaves| ==> leaves[j].isLeaf && leaves[j].left.None? && leaves[j].right.None?
      ensures TreeHashes(levels) == LevelsFrom(H, HashesOf(leaves))
      ensures Linked(levels)
      ensures |leaves| <= |levels[0]| && levels[0][..|leaves|] == leaves
      ensures CopiesFrom(levels[0], |leaves|)
      ensures |levels[|levels| - 1]| == 1
    {
      var done: seq<seq<MerkleNode>> := [];
      var current := leaves;
      ghost var target := LevelsFrom(H, HashesOf(leaves));
      assert [current][0][..|leaves|] == leaves;
      while |current| > 1
        invariant 1 <= |current|
        invariant TreeHashes(done) + LevelsFrom(H, HashesOf(current)) == target
        invariant Linked(done + [current])
        invariant |leaves| <= |(done + [current])[0]| && (done + [current])[0][..|leaves|] == leaves
        invariant CopiesFrom((done + [current])[0], |leaves|)
        decreases |current|
      {
        ghost var hashes := HashesOf(current);
        if |current| % 2 != 0 {
          PaddingKeepsLinked(done, current, |leaves|);
          PaddingHashes(current);
          current := current + [current[|current| - 1]];
        }
        PaddedIsEven(hashes);
        var next := PairLevel(current);
        HashesStep(H, target, done, hashes, current, next);
        AppendKeepsLinked(done + [current], next);
        done := done + [current];
        current := next;
      }
      levels := done + [current];
      TreeHashesSnoc(done, current);
    }

    /** One pass of the inner `for` loop of `_build_tree` over an even-sized level:
        each pair of nodes gets a parent whose hash combines theirs, left first. */
    method PairLevel(level: seq<MerkleNode>) returns (next: seq<MerkleNode>)
      requires |level| % 2 == 0
      ensures |next| == |level| / 2
      ensures HashesOf(next) == Parents(H, HashesOf(level))
      ensures Pairs(level, next)
    {
      next := [];
      var i := 0;
      while i < |level|
        invariant i % 2 == 0 && i <= |level|
        invariant |next| == i / 2
        invariant forall t :: 0 <= t < |next| ==>
          next[t] == NewNode(CombineHashes(H, level[2 * t].hash, level[2 * t + 1].hash),
                             Some(level[2 * t]), Some(level[2 * t + 1]))
      {
        var leftNode := level[i];
        var rightNode := level[i + 1];
        var parentHash := CombineHashes(H, leftNode.hash, rightNode.hash);
        next := next + [NewNode(parentHash, Some(leftNode), Some(rightNode))];
        i := i + 2;
      }
      forall t | 0 <= t < |next|
        ensures HashesOf(next)[t] == Parents(H, HashesOf(level))[t]
      {
        ParentsIndex(H, HashesOf(level), t);
      }
    }

    /** `get_root_hash`: the hash at the top of the tree (a built tree always has a
        root, so the "no root" answer cannot occur). */
    function GetRootHash(): (h: Option<string>)
      reads this
      requires Valid()
      ensures h == Some(RootHash(H, data))
    {
      Some(root.value.hash)
    }

    /** `get_tree_depth`: the number of stored levels, `ceil(log2 n) + 1` for `n` items. */
    function GetTreeDepth(): (depth: nat)
      reads this
      requires Valid()
      ensures depth == |Levels(H, data)|
    {
      assert |tree| == |TreeHashes(tree)|;
      |tree|
    }

    /** `get_tree_height`: one less than the depth, that is `ceil(log2 n)`. */
    function GetTreeHeight(): (height: int)
      reads this
      requires Valid()
      ensures height + 1 == |Levels(H, data)|
    {
      assert |tree| == |TreeHashes(tree)|;
      |tree| - 1
    }

    /** `get_leaf_count`: the number of items the tree was built from. */
    function GetLeafCount(): (count: nat)
      reads this
      requires Valid()
      ensures count == |data|
    {
      |leaves|
    }

    /** `generate_proof(index)`: no proof for an index outside the items, otherwise
        the sibling of the path node at every level below the root. */
    method GenerateProof(index: int) returns (proof: Option<seq<ProofStep>>)
      requires Valid()
      ensures proof.None? <==> index < 0 || index >= |data|
      ensures proof.Some? ==> proof.value == ProofFor(H, data, index)
    {
      if index < 0 || index >= |leaves| {
        return None;
      }
      var steps := [];
      var currentIndex := index;
      for level := 0 to |tree| - 1
        invariant currentIndex == PathIndex(index, level)
        invariant steps == ProofFor(H, data, index)[..level]
      {
        SiblingInRange(H, data, index, level);
        ProofPrefixStep(H, data, index, level);
        assert HashesOf(tree[level]) == Levels(H, data)[level];
        var isLeftChild := currentIndex % 2 == 0;
        var siblingIndex := if isLeftChild then currentIndex + 1 else currentIndex - 1;
        if siblingIndex < |tree[level]| {
          var sibling := tree[level][siblingIndex];
          assert sibling.hash == HashesOf(tree[level])[siblingIndex];
          steps := steps + [ProofStep(sibling.hash, if isLeftChild then Right else Left, level, HashShort(sibling.hash, 32))];
        }
        currentIndex := currentIndex / 2;
      }
      return Some(steps);
    }

    /** `verify_proof(leaf_data, proof)`: an empty proof is rejected; otherwise the
        steps are folded into the leaf's digest and the result is compared with this
        tree's own root. */
    method VerifyProof(leafData: string, proof: seq<ProofStep>) returns (valid: bool)
      requires Valid()
      ensures valid == Verifies(H, RootHash(H, data), leafData, proof)
    {
      if proof == [] {
        return false;
      }
      var computedHash := H(leafData);
      for k := 0 to |proof|
        invariant computedHash == Fold(H, H(leafData), proof[..k])
      {
        assert proof[..k + 1][..k] == proof[..k];
        var step := proof[k];
        if step.position == Right {
          computedHash := CombineHashes(H, computedHash, step.hash);
        } else {
          computedHash := CombineHashes(H, step.hash, computedHash);
        }
      }
      assert proof[..|proof|] == proof;
      return computedHash == root.value.hash;
    }
  }
}

=== FILE: tree_spec.dfy ===
/** The Merkle tree as values: the levels that `MerkleTree._build_tree` stores, the
    proof that `generate_proof` walks out of them and the fold that `verify_proof`
    computes (core/merkle_tree.py). The class in merkle_tree.dfy is proved against
    these functions; the properties of the engine are proved here, over any digest
    function `H`, except tamper detection, which is proved over any injective `H`,
    and order sensitivity, which is proved over any injective, length-uniform `H`
    whose digests of the two exchanged items have equal length. */
module TreeSpec {
  import opened HashUtils
  import opened Nodes

  /** The two sides a proof step can name. */
  const Right: string := "right"
  const Left: string := "left"

  /** One entry of a proof: the sibling's hash, the side the sibling sits on, the level
      it was taken from and its 32-character preview. */
  datatype ProofStep = ProofStep(hash: string, position: string, level: int, hashShort: string)

  /** Level 0 before padding: the digest of every data item, in input order. */
  function LeafHashes(H: Hasher, data: seq<string>): (leaves: seq<string>)
    ensures |leaves| == |data|
    ensures forall i :: 0 <= i < |data| ==> leaves[i] == H(data[i])
  {
    if data == [] then [] else [H(data[0])] + LeafHashes(H, data[1..])
  }

  /** The odd-count policy: an odd-sized level gets a copy of its last node. */
  function Padded(level: seq<string>): seq<string>
  {
    if |level| % 2 != 0 then level + [level[|level| - 1]] else level
  }

  /** The level above an even-sized level: node `j` combines nodes `2j` and `2j+1`
      (see `ParentsIndex`). */
  function Parents(H: Hasher, level: seq<string>): (above: seq<string>)
    ensures |above| == |level| / 2
    decreases |level|
  {
    if |level| < 2 then [] else [CombineHashes(H, level[0], level[1])] + Parents(H, level[2..])
  }

  /** Node `j` of the level above combines the pair `2j`, `2j + 1` below it, left first. */
  lemma {:induction false} ParentsIndex(H: Hasher, level: seq<string>, j: nat)
    requires j < |level| / 2
    ensures Parents(H, level)[j] == CombineHashes(H, level[2 * j], level[2 * j + 1])
    decreases |level|
  {
    if j > 0 {
      var tail := level[2..];
      ParentsIndex(H, tail, j - 1);
      assert tail[2 * (j - 1)] == level[2 * j] && tail[2 * (j - 1) + 1] == level[2 * j + 1];
    }
  }

  /** The levels stored when building upward from `level`. Every stored level except
      the top one is the padded one, because the padding is appended to the very list
      that was already stored. */
  function LevelsFrom(H: Hasher, level: seq<string>): (levels: seq<seq<string>>)
    ensures |levels| >= 1
    decreases |level|
  {
    if |level| <= 1 then
      [level]
    else
      var padded := Padded(level);
      [padded] + LevelsFrom(H, Parents(H, padded))
  }

  /** The stored levels of the tree over `data` (`self.tree`, as hashes). */
  function Levels(H: Hasher, data: seq<string>): (levels: seq<seq<string>>)
    ensures |levels| >= 1
  {
    LevelsFrom(H, LeafHashes(H, data))
  }

  /** `ceil(m / 2)` applied `k` times: the number of real (unpadded) nodes of level `k`
      of a tree with `n` leaves. */
  function Size(n: nat, k: nat): nat
  {
    if k == 0 then n else (Size(n, k - 1) + 1) / 2
  }

  function Pow2(k: nat): nat
  {
    if k == 0 then 1 else 2 * Pow2(k - 1)
  }

  /** `k` is `ceil(log2 n)`: the least exponent whose power of two reaches `n`. */
  ghost predicate IsCeilLog2(k: nat, n: nat)
  {
    Pow2(k) >= n && (k == 0 || Pow2(k - 1) < n)
  }

  /** Level `k + 1` is the parents of stored level `k`, padded unless it is the top. */
  ghost predicate LinkedAt(H: Hasher, levels: seq<seq<string>>, k: nat)
    requires k + 1 < |levels|
  {
    levels[k + 1] == if k + 2 == |levels| then Parents(H, levels[k]) else Padded(Parents(H, levels[k]))
  }

  /** Pairing a padded level halves it, rounding up. */
  lemma ParentsSize(H: Hasher, level: seq<string>)
    ensures |Parents(H, Padded(level))| == (|level| + 1) / 2
    ensures |level| >= 1 ==> |Parents(H, Padded(level))| >= 1
    ensures |level| > 1 ==> |Parents(H, Padded(level))| < |level|
  {
  }

  /** The bottom of the build: the input itself when it is the only level (a single
      node), and the padded input otherwise. */
  lemma LevelsBottom(H: Hasher, level: seq<string>)
    requires |level| >= 1
    ensures var levels := LevelsFrom(H, level);
      && levels[0] == (if |levels| == 1 then level else Padded(level))
      && (|levels| == 1 <==> |level| == 1)
  {
  }

  /** The build stops at a single node: the top stored level has exactly one. */
  lemma {:induction false} TopLevelSize(H: Hasher, level: seq<string>)
    requires |level| >= 1
    ensures var levels := LevelsFrom(H, level);
      |levels[|levels| - 1]| == 1
    decreases |level|
  {
    if |level| > 1 {
      var above := Parents(H, Padded(level));
      ParentsSize(H, level);
      TopLevelSize(H, above);
      var rest := LevelsFrom(H, above);
      assert LevelsFrom(H, level) == [Padded(level)] + rest;
      LastOfCons(Padded(level), rest);
    }
  }

  lemma LastOfCons<T>(x: T, s: seq<T>)
    requires |s| >= 1
    ensures |[x] + s| == |s| + 1 && ([x] + s)[|s|] == s[|s| - 1]
  {
  }

  /** Each stored level is made from the one below it. */
  lemma {:induction false} LevelsLinked(H: Hasher, level: seq<string>)
    ensures var levels := LevelsFrom(H, level);
      forall k :: 0 <= k < |levels| - 1 ==> LinkedAt(H, levels, k)
    decreases |level|
  {
    if |level| > 1 {
      var padded := Padded(level);
      var above := Parents(H, padded);
      ParentsSize(H, level);
      LevelsLinked(H, above);
      LevelsBottom(H, above);
      var rest := LevelsFrom(H, above);
      LinkedBelow(H, padded, rest);
      assert LevelsFrom(H, level) == [padded] + rest;
    }
  }

  /** Putting a level under levels that start with its parents keeps every level
      made from the one below. */
  lemma LinkedBelow(H: Hasher, lower: seq<string>, rest: seq<seq<string>>)
    requires |rest| >= 1
    requires rest[0] == if |rest| == 1 then Parents(H, lower) else Padded(Parents(H, lower))
    requires forall k :: 0 <= k < |rest| - 1 ==> LinkedAt(H, rest, k)
    ensures forall k :: 0 <= k < |rest| ==> LinkedAt(H, [lower] + rest, k)
  {
    forall k | 0 <= k < |rest|
      ensures LinkedAt(H, [lower] + rest, k)
    {
      if k > 0 {
        LinkedShift(H, lower, rest, k - 1);
      } else {
        assert ([lower] + rest)[0] == lower && ([lower] + rest)[1] == rest[0];
      }
    }
  }

  lemma LinkedShift(H: Hasher, lower: seq<string>, rest: seq<seq<string>>, k: nat)
    requires k + 1 < |rest|
    requires LinkedAt(H, rest, k)
    ensures LinkedAt(H, [lower] + rest, k + 1)
  {
    var levels := [lower] + rest;
    assert levels[k + 1] == rest[k] && levels[k + 2] == rest[k + 1];
  }

  /** Shifting the start of the size recurrence by one level. */
  lemma {:induction false} SizeShift(n: nat, k: nat)
    ensures Size(n, k + 1) == Size((n + 1) / 2, k)
  {
    if k > 0 {
      SizeShift(n, k - 1);
    }
  }

  /** The number of levels of a tree with `n` leaves: one, plus the levels above when
      there is more than one node. */
  function Depth(n: nat): nat
    decreases n
  {
    if n <= 1 then 1 else 1 + Depth((n + 1) / 2)
  }

  /** The builder stores `Depth(n)` levels. */
  lemma {:induction false} LevelCount(H: Hasher, level: seq<string>)
    ensures |LevelsFrom(H, level)| == Depth(|level|)
    decreases |level|
  {
    if |level| > 1 {
      var above := Parents(H, Padded(level));
      assert |above| == (|level| + 1) / 2;
      LevelCount(H, above);
    }
  }

  /** The depth law: `Depth(n) - 1` is `ceil(log2 n)`; the real node count reaches one
      exactly at the top level and is at least two below it. */
  lemma {:induction false} DepthLaw(n: nat)
    requires n >= 1
    ensures IsCeilLog2(Depth(n) - 1, n)
    ensures Size(n, Depth(n) - 1) == 1
    ensures forall k :: 0 <= k < Depth(n) - 1 ==> Size(n, k) >= 2
    decreases n
  {
    if n > 1 {
      var half := (n + 1) / 2;
      DepthLaw(half);
      SizeShift(n, Depth(half) - 1);
      forall k | 0 <= k < Depth(n) - 1
        ensures Size(n, k) >= 2
      {
        if k > 0 {
          SizeShift(n, k - 1);
        }
      }
      assert Pow2(Depth(n) - 1) == 2 * Pow2(Depth(half) - 1);
    }
  }

  /** The depth law for a tree over `n >= 1` items: it stores `ceil(log2 n) + 1`
      levels, and its height (one less) is `ceil(log2 n)`. */
  lemma TreeDepthLaw(H: Hasher, data: seq<string>)
    requires |data| >= 1
    ensures IsCeilLog2(|Levels(H, data)| - 1, |data|)
  {
    var n := |data|;
    assert |Levels(H, data)| == Depth(n) by {
      LevelCount(H, LeafHashes(H, data));
    }
    DepthLaw(n);
  }

  /** The level-size law: below the top, stored level `k` holds the `Size(n, k)` real
      nodes plus one copy of the last when that number is odd, so it has even length. */
  lemma {:induction false} LevelsSizes(H: Hasher, level: seq<string>)
    requires |level| >= 1
    ensures var levels := LevelsFrom(H, level);
      forall k :: 0 <= k < |levels| - 1 ==> |levels[k]| == Size(|level|, k) + Size(|level|, k) % 2
    decreases |level|
  {
    var n := |level|;
    if n > 1 {
      var padded := Padded(level);
      var above := Parents(H, padded);
      assert |above| == (n + 1) / 2;
      LevelsSizes(H, above);
      var levels := LevelsFrom(H, level);
      var rest := LevelsFrom(H, above);
      assert levels == [padded] + rest;
      forall k | 0 <= k < |levels| - 1
        ensures |levels[k]| == Size(n, k) + Size(n, k) % 2
      {
        if k > 0 {
          SizeShift(n, k - 1);
          assert levels[k] == rest[k - 1];
        }
      }
    }
  }

  /** The leaves keep their input order: stored level 0 starts with the digest of each
      data item, and anything after them is the copy of the last one. */
  lemma LeafLevel(H: Hasher, data: seq<string>)
    requires |data| >= 1
    ensures var bottom := Levels(H, data)[0];
      && |data| <= |bottom| <= |data| + 1
      && (forall i :: 0 <= i < |data| ==> bottom[i] == H(data[i]))
      && (|bottom| > |data| ==> bottom[|data|] == H(data[|data| - 1]))
  {
    LevelsBottom(H, LeafHashes(H, data));
  }

  /** Node `j` of level `k + 1` is the combination of nodes `2j` and `2j + 1` of
      stored level `k`. */
  lemma ParentAt(H: Hasher, level: seq<string>, k: nat, j: nat)
    requires |level| >= 1
    requires k + 1 < |LevelsFrom(H, level)|
    requires j < |LevelsFrom(H, level)[k]| / 2
    ensures var levels := LevelsFrom(H, level);
      j < |levels[k + 1]| && levels[k + 1][j] == CombineHashes(H, levels[k][2 * j], levels[k][2 * j + 1])
  {
    LevelsLinked(H, level);
    ParentOf(H, LevelsFrom(H, level), k, j);
  }

  /** Where level `k + 1` is made from level `k`, its node `j` combines the pair below. */
  lemma ParentOf(H: Hasher, levels: seq<seq<string>>, k: nat, j: nat)
    requires k + 1 < |levels|
    requires LinkedAt(H, levels, k)
    requires j < |levels[k]| / 2
    ensures j < |levels[k + 1]| && levels[k + 1][j] == CombineHashes(H, levels[k][2 * j], levels[k][2 * j + 1])
  {
    var parents := Parents(H, levels[k]);
    ParentsIndex(H, levels[k], j);
    if k + 2 != |levels| {
      PaddedKeepsPrefix(parents, j);
    }
  }

  /** A padded level has even length. */
  lemma PaddedIsEven(level: seq<string>)
    ensures |Padded(level)| % 2 == 0
  {
  }

  /** Padding only appends: every existing node keeps its position. */
  lemma PaddedKeepsPrefix(level: seq<string>, j: nat)
    requires j < |level|
    ensures |level| <= |Padded(level)| && Padded(level)[j] == level[j]
  {
  }

  /** Odd-count stability: where level `k` has an odd number `m` of real nodes, the
      last of them is paired with itself to give node `(m - 1) / 2` of level `k + 1`. */
  lemma OddLevelPairsLastWithItself(H: Hasher, level: seq<string>, k: nat)
    requires |level| >= 1
    requires k + 1 < |LevelsFrom(H, level)|
    requires Size(|level|, k) % 2 == 1
    ensures var levels := LevelsFrom(H, level);
      var m := Size(|level|, k);
      && m < |levels[k]|
      && levels[k][m] == levels[k][m - 1]
      && (m - 1) / 2 < |levels[k + 1]|
      && levels[k + 1][(m - 1) / 2] == CombineHashes(H, levels[k][m - 1], levels[k][m - 1])
  {
    var nodes := RealNodes(H, level, k);
    PaddedOddLast(nodes);
    HalfOfOdd(Size(|level|, k));
    ParentAt(H, level, k, (Size(|level|, k) - 1) / 2);
  }

  /** Below the top, stored level `k` is the padding of its `Size(n, k)` real nodes. */
  lemma RealNodes(H: Hasher, level: seq<string>, k: nat) returns (nodes: seq<string>)
    requires |level| >= 1
    requires k + 1 < |LevelsFrom(H, level)|
    ensures |nodes| == Size(|level|, k)
    ensures LevelsFrom(H, level)[k] == Padded(nodes)
  {
    var levels := LevelsFrom(H, level);
    if k == 0 {
      nodes := level;
      LevelsBottom(H, level);
    } else {
      nodes := Parents(H, levels[k - 1]);
      assert levels[k] == Padded(nodes) by {
        LevelsLinked(H, level);
        assert LinkedAt(H, levels, k - 1);
      }
      LevelsSizes(H, level);
      HalfRoundedUp(Size(|level|, k - 1));
    }
  }

  /** Padding an odd-sized level adds one copy of its last node. */
  lemma PaddedOddLast(level: seq<string>)
    requires |level| % 2 == 1
    ensures |Padded(level)| == |level| + 1
    ensures Padded(level)[|level|] == Padded(level)[|level| - 1] == level[|level| - 1]
  {
  }

  lemma HalfRoundedUp(s: nat)
    ensures (s + s % 2) / 2 == (s + 1) / 2
  {
  }

  lemma HalfOfOdd(m: nat)
    requires m % 2 == 1
    ensures 2 * ((m - 1) / 2) == m - 1 && 2 * ((m - 1) / 2) + 1 == m
    ensures (m - 1) / 2 < (m + 1) / 2
  {
  }

  /** The index of the path node at level `k` when proving leaf `i`
      (`current_index` after `k` halvings). */
  function PathIndex(i: nat, k: nat): nat
  {
    if k == 0 then i else PathIndex(i, k - 1) / 2
  }

  /** The sibling of a node: the other member of its pair (`index xor 1`). */
  function SiblingIndex(index: nat): nat
  {
    if index % 2 == 0 then index + 1 else index - 1
  }

  /** The path of a leaf stays among the real nodes of every level. */
  lemma {:induction false} PathIndexBound(i: nat, n: nat, k: nat)
    requires i < n
    ensures PathIndex(i, k) < Size(n, k)
  {
    if k > 0 {
      PathIndexBound(i, n, k - 1);
    }
  }

  /** Below the top, the sibling of the path node always exists among the stored
      nodes of its level (thanks to the padding). */
  lemma SiblingInRange(H: Hasher, data: seq<string>, i: nat, k: nat)
    requires i < |data|
    requires k + 1 < |Levels(H, data)|
    ensures PathIndex(i, k) < |Levels(H, data)[k]|
    ensures SiblingIndex(PathIndex(i, k)) < |Levels(H, data)[k]|
    ensures |Levels(H, data)[k]| % 2 == 0
  {
    var n := |data|;
    var leaves := LeafHashes(H, data);
    var levels := Levels(H, data);
    assert levels == LevelsFrom(H, leaves) && |leaves| == n;
    var m := Size(n, k);
    assert |levels[k]| == m + m % 2 by {
      LevelsSizes(H, leaves);
    }
    PathIndexBound(i, n, k);
    SiblingBelow(PathIndex(i, k), m);
  }

  /** The sibling of a node among `m` real nodes exists once the level is padded. */
  lemma SiblingBelow(index: nat, m: nat)
    requires index < m
    ensures SiblingIndex(index) < m + m % 2
    ensures (m + m % 2) % 2 == 0
  {
  }

  /** Step `k` of the proof of leaf `i`: the hash of the path node's sibling, "right"
      when the path node is a left child and "left" otherwise. */
  function StepAt(H: Hasher, data: seq<string>, i: nat, k: nat): ProofStep
    requires i < |data|
    requires k + 1 < |Levels(H, data)|
  {
    SiblingInRange(H, data, i, k);
    var index := PathIndex(i, k);
    var sibling := Levels(H, data)[k][SiblingIndex(index)];
    ProofStep(sibling, if index % 2 == 0 then Right else Left, k, HashShort(sibling, 32))
  }

  /** The proof `generate_proof(i)` returns: one step per level below the root. */
  function ProofFor(H: Hasher, data: seq<string>, i: nat): (proof: seq<ProofStep>)
    requires i < |data|
    ensures |proof| == |Levels(H, data)| - 1
  {
    var levels := Levels(H, data);
    seq(|levels| - 1, k requires 0 <= k < |levels| - 1 => StepAt(H, data, i, k))
  }

  /** Step `k` of the proof is the sibling step at level `k`. */
  lemma ProofStepIs(H: Hasher, data: seq<string>, i: nat, k: nat)
    requires i < |data|
    requires k + 1 < |Levels(H, data)|
    ensures k < |ProofFor(H, data, i)| && ProofFor(H, data, i)[k] == StepAt(H, data, i, k)
  {
  }

  /** The shape of step `k` of the proof of leaf `i`: taken from level `k`, it holds
      the hash of the sibling of the path node `i_k` (with `i_0 = i`, `i_{k+1} = i_k / 2`),
      says "right" exactly when `i_k` is even (the sibling is to its right) and "left"
      otherwise, and carries the 32-character preview of that hash. */
  lemma ProofStepShape(H: Hasher, data: seq<string>, i: nat, k: nat)
    requires i < |data|
    requires k + 1 < |Levels(H, data)|
    ensures k < |ProofFor(H, data, i)|
    ensures var step := ProofFor(H, data, i)[k];
      var index := PathIndex(i, k);
      && step.level == k
      && (step.position == Right <==> index % 2 == 0)
      && (step.position == Left <==> index % 2 == 1)
      && SiblingIndex(index) < |Levels(H, data)[k]|
      && step.hash == Levels(H, data)[k][SiblingIndex(index)]
      && step.hashShort == HashShort(step.hash, 32)
  {
    ProofStepIs(H, data, i, k);
    SiblingInRange(H, data, i, k);
    assert Right != Left;
  }

  /** The proof grows one step per level. */
  lemma ProofPrefixStep(H: Hasher, data: seq<string>, i: nat, k: nat)
    requires i < |data|
    requires k + 1 < |Levels(H, data)|
    ensures ProofFor(H, data, i)[..k] + [StepAt(H, data, i, k)] == ProofFor(H, data, i)[..k + 1]
  {
    var proof := ProofFor(H, data, i);
    assert proof[k] == StepAt(H, data, i, k);
  }

  /** The hash at the top of the tree over `data`. */
  function RootHash(H: Hasher, data: seq<string>): string
    requires |data| >= 1
  {
    TopOfLevels(H, data);
    var levels := Levels(H, data);
    levels[|levels| - 1][0]
  }

  /** The tree over `data` ends in a single node. */
  lemma TopOfLevels(H: Hasher, data: seq<string>)
    requires |data| >= 1
    ensures |Levels(H, data)[|Levels(H, data)| - 1]| == 1
  {
    var leaves := LeafHashes(H, data);
    assert Levels(H, data) == LevelsFrom(H, leaves) && |leaves| == |data|;
    TopLevelSize(H, leaves);
  }

  /** One step of verification: combine the running hash with the step's hash, the
      running hash on the left when the step says "right" and on the right for any
      other position. */
  function StepHash(H: Hasher, acc: string, step: ProofStep): string
  {
    if step.position == Right then CombineHashes(H, acc, step.hash) else CombineHashes(H, step.hash, acc)
  }

  /** The running hash after folding all steps of `proof`, first to last, into `start`. */
  function Fold(H: Hasher, start: string, proof: seq<ProofStep>): string
    decreases |proof|
  {
    if proof == [] then start else StepHash(H, Fold(H, start, proof[..|proof| - 1]), proof[|proof| - 1])
  }

  /** `verify_proof` against the root `root`: an empty proof is rejected, otherwise the
      fold from the leaf's digest must reach the root. */
  function Verifies(H: Hasher, root: string, leafData: string, proof: seq<ProofStep>): bool
  {
    proof != [] && Fold(H, H(leafData), proof) == root
  }

  /** The proof length law: a proof has `ceil(log2 n)` steps, one per level below the
      root. */
  lemma ProofLength(H: Hasher, data: seq<string>, i: nat)
    requires i < |data|
    ensures |ProofFor(H, data, i)| + 1 == |Levels(H, data)|
    ensures IsCeilLog2(|ProofFor(H, data, i)|, |data|)
    ensures ProofFor(H, data, i) == [] <==> |data| == 1
  {
    var proof := ProofFor(H, data, i);
    assert |Levels(H, data)| == Depth(|data|) by {
      LevelCount(H, LeafHashes(H, data));
    }
    TreeDepthLaw(H, data);
    assert proof == [] <==> |proof| == 0;
  }

  /** Folding the first `k` steps of the proof of leaf `i` gives the hash of the path
      node at level `k`. */
  lemma {:induction false} FoldAlongPath(H: Hasher, data: seq<string>, i: nat, k: nat)
    requires i < |data|
    requires k < |Levels(H, data)|
    ensures PathIndex(i, k) < |Levels(H, data)[k]|
    ensures Fold(H, H(data[i]), ProofFor(H, data, i)[..k]) == Levels(H, data)[k][PathIndex(i, k)]
  {
    var levels := Levels(H, data);
    var proof := ProofFor(H, data, i);
    var start := H(data[i]);
    if k == 0 {
      LeafLevel(H, data);
      assert proof[..0] == [];
    } else {
      var j := k - 1;
      FoldAlongPath(H, data, i, j);
      PathStep(H, data, i, j);
      ProofStepIs(H, data, i, j);
      FoldOneMore(H, start, proof, k, levels[j][PathIndex(i, j)], levels[k][PathIndex(i, k)]);
    }
  }

  /** Applying step `k` of the proof of leaf `i` to the path node at level `k` gives
      the path node at level `k + 1`. */
  lemma PathStep(H: Hasher, data: seq<string>, i: nat, k: nat)
    requires i < |data|
    requires k + 1 < |Levels(H, data)|
    ensures PathIndex(i, k) < |Levels(H, data)[k]|
    ensures PathIndex(i, k + 1) < |Levels(H, data)[k + 1]|
    ensures StepHash(H, Levels(H, data)[k][PathIndex(i, k)], StepAt(H, data, i, k))
         == Levels(H, data)[k + 1][PathIndex(i, k + 1)]
  {
    var leaves := LeafHashes(H, data);
    var levels := LevelsFrom(H, leaves);
    var index := PathIndex(i, k);
    SiblingInRange(H, data, i, k);
    StepClimbs(H, levels[k], index, StepAt(H, data, i, k));
    ParentAt(H, leaves, k, index / 2);
  }

  /** Folding one more step of a proof applies that step to the running hash. */
  lemma FoldOneMore(H: Hasher, start: string, proof: seq<ProofStep>, k: nat, acc: string, next: string)
    requires 0 < k <= |proof|
    requires Fold(H, start, proof[..k - 1]) == acc
    requires StepHash(H, acc, proof[k - 1]) == next
    ensures Fold(H, start, proof[..k]) == next
  {
    assert proof[..k][..k - 1] == proof[..k - 1];
  }

  /** One proof step climbs one level: combining the path node with its sibling, on
      the side the step names, gives the hash of their parent's pair. */
  lemma StepClimbs(H: Hasher, lower: seq<string>, index: nat, step: ProofStep)
    requires index < |lower| && SiblingIndex(index) < |lower|
    requires step.hash == lower[SiblingIndex(index)]
    requires step.position == if index % 2 == 0 then Right else Left
    ensures 2 * (index / 2) + 1 < |lower|
    ensures StepHash(H, lower[index], step) == CombineHashes(H, lower[2 * (index / 2)], lower[2 * (index / 2) + 1])
  {
    assert Right != Left;
  }

  /** The proof of leaf `i` folds from the leaf's digest up to the root. */
  lemma ProofReachesRoot(H: Hasher, data: seq<string>, i: nat)
    requires i < |data|
    ensures Fold(H, H(data[i]), ProofFor(H, data, i)) == RootHash(H, data)
  {
    var proof := ProofFor(H, data, i);
    var levels := Levels(H, data);
    var top := |levels| - 1;
    TopOfLevels(H, data);
    FoldAlongPath(H, data, i, top);
    assert PathIndex(i, top) == 0;
    assert proof[..top] == proof;
  }

  /** Round trip: the proof of leaf `i` verifies against the root exactly when the
      tree has at least two leaves; for a single leaf the proof is empty and
      verification says false. */
  lemma RoundTrip(H: Hasher, data: seq<string>, i: nat)
    requires i < |data|
    ensures Verifies(H, RootHash(H, data), data[i], ProofFor(H, data, i)) <==> |data| >= 2
  {
    ProofReachesRoot(H, data, i);
    ProofLength(H, data, i);
  }

  /** Folding one proof from two different starting hashes gives two different results
      when the digest function is injective. */
  lemma {:induction false} FoldInjective(H: Hasher, a: string, b: string, proof: seq<ProofStep>)
    requires Injective(H)
    requires Fold(H, a, proof) == Fold(H, b, proof)
    ensures a == b
  {
    if proof != [] {
      var init := proof[..|proof| - 1];
      var step := proof[|proof| - 1];
      var x := Fold(H, a, init);
      var y := Fold(H, b, init);
      if step.position == Right {
        InjectiveAt(H, x + step.hash, y + step.hash);
        assert |x| == |y|;
        PrefixCancel(x, step.hash, y, step.hash);
      } else {
        InjectiveAt(H, step.hash + x, step.hash + y);
        PrefixCancel(step.hash, x, step.hash, y);
      }
      FoldInjective(H, a, b, init);
    }
  }

  /** A proof and a root bind the leaf data: two data strings that both verify against
      the same proof and root are equal (under an injective digest). */
  lemma ProofBindsLeaf(H: Hasher, root: string, a: string, b: string, proof: seq<ProofStep>)
    requires Injective(H)
    requires Verifies(H, root, a, proof) && Verifies(H, root, b, proof)
    ensures a == b
  {
    FoldInjective(H, H(a), H(b), proof);
    InjectiveAt(H, a, b);
  }

  /** Tamper detection: any data other than leaf `i`'s own fails to verify against the
      proof of leaf `i` (under an injective digest). */
  lemma TamperDetected(H: Hasher, data: seq<string>, i: nat, forged: string)
    requires Injective(H)
    requires i < |data| && forged != data[i]
    ensures !Verifies(H, RootHash(H, data), forged, ProofFor(H, data, i))
  {
    if Verifies(H, RootHash(H, data), forged, ProofFor(H, data, i)) {
      RoundTrip(H, data, i);
      ProofBindsLeaf(H, RootHash(H, data), forged, data[i], ProofFor(H, data, i));
    }
  }

  /** `data` with the items at `p` and `q` exchanged. */
  function Swapped(data: seq<string>, p: nat, q: nat): (r: seq<string>)
    requires p < |data| && q < |data|
    ensures |r| == |data| && r[p] == data[q] && r[q] == data[p]
    ensures forall i :: 0 <= i < |data| && i != p && i != q ==> r[i] == data[i]
  {
    data[p := data[q]][q := data[p]]
  }

  /** Two levels of the same size whose nodes have pairwise equal lengths. */
  ghost predicate SameShape(x: seq<string>, y: seq<string>)
  {
    |x| == |y| && forall i :: 0 <= i < |x| ==> |x[i]| == |y[i]|
  }

  /** Padding two levels of the same shape gives two levels of the same shape. */
  lemma PaddedSameShape(x: seq<string>, y: seq<string>)
    requires SameShape(x, y) && |x| >= 1
    ensures SameShape(Padded(x), Padded(y))
  {
    forall i | 0 <= i < |Padded(x)|
      ensures |Padded(x)[i]| == |Padded(y)[i]|
    {
      if i < |x| {
        PaddedKeepsPrefix(x, i);
        PaddedKeepsPrefix(y, i);
      }
    }
  }

  /** Pairing two even levels of the same shape gives two levels of the same shape,
      when digest length depends only on input length. */
  lemma ParentsSameShape(H: Hasher, x: seq<string>, y: seq<string>)
    requires LengthUniform(H)
    requires SameShape(x, y) && |x| % 2 == 0
    ensures SameShape(Parents(H, x), Parents(H, y))
  {
    forall j | 0 <= j < |Parents(H, x)|
      ensures |Parents(H, x)[j]| == |Parents(H, y)[j]|
    {
      ParentsIndex(H, x, j);
      ParentsIndex(H, y, j);
      LengthUniformAt(H, x[2 * j] + x[2 * j + 1], y[2 * j] + y[2 * j + 1]);
    }
  }

  /** Under an injective digest, equal parents of two even levels of the same shape
      come from equal levels. */
  lemma ParentsInjective(H: Hasher, x: seq<string>, y: seq<string>)
    requires Injective(H)
    requires SameShape(x, y) && |x| % 2 == 0
    requires Parents(H, x) == Parents(H, y)
    ensures x == y
  {
    forall j | 0 <= j < |x| / 2
      ensures x[2 * j] == y[2 * j] && x[2 * j + 1] == y[2 * j + 1]
    {
      ParentsIndex(H, x, j);
      ParentsIndex(H, y, j);
      InjectiveAt(H, x[2 * j] + x[2 * j + 1], y[2 * j] + y[2 * j + 1]);
      PrefixCancel(x[2 * j], x[2 * j + 1], y[2 * j], y[2 * j + 1]);
    }
    forall i | 0 <= i < |x|
      ensures x[i] == y[i]
    {
      var j := i / 2;
      assert i == 2 * j || i == 2 * j + 1;
    }
  }

  /** The top of the build determines the level it starts from: two levels of the
      same shape whose builds end in the same node are equal (injective,
      length-uniform digest). */
  lemma {:induction false} TopDeterminesLevel(H: Hasher, x: seq<string>, y: seq<string>)
    requires Injective(H) && LengthUniform(H)
    requires SameShape(x, y) && |x| >= 1
    requires |LevelsFrom(H, x)[|LevelsFrom(H, x)| - 1]| >= 1
    requires |LevelsFrom(H, y)[|LevelsFrom(H, y)| - 1]| >= 1
    requires LevelsFrom(H, x)[|LevelsFrom(H, x)| - 1][0] == LevelsFrom(H, y)[|LevelsFrom(H, y)| - 1][0]
    ensures x == y
    decreases |x|
  {
    if |x| == 1 {
      assert LevelsFrom(H, x) == [x] && LevelsFrom(H, y) == [y];
    } else {
      var px := Padded(x);
      var py := Padded(y);
      PaddedSameShape(x, y);
      PaddedIsEven(x);
      var ax := Parents(H, px);
      var ay := Parents(H, py);
      ParentsSameShape(H, px, py);
      ParentsSize(H, x);
      var rx := LevelsFrom(H, ax);
      var ry := LevelsFrom(H, ay);
      assert LevelsFrom(H, x) == [px] + rx;
      assert LevelsFrom(H, y) == [py] + ry;
      LastOfCons(px, rx);
      LastOfCons(py, ry);
      TopDeterminesLevel(H, ax, ay);
      ParentsInjective(H, px, py);
      assert x == px[..|x|] && y == py[..|y|];
    }
  }

  /** The root determines the leaf digests of the trees whose leaf digests have the
      same shape (injective, length-uniform digest). */
  lemma RootDeterminesLeaves(H: Hasher, a: seq<string>, b: seq<string>)
    requires Injective(H) && LengthUniform(H)
    requires |a| >= 1 && |a| == |b|
    requires forall i :: 0 <= i < |a| ==> |H(a[i])| == |H(b[i])|
    requires RootHash(H, a) == RootHash(H, b)
    ensures LeafHashes(H, a) == LeafHashes(H, b)
  {
    var x := LeafHashes(H, a);
    var y := LeafHashes(H, b);
    assert SameShape(x, y);
    EqualRootsEqualTops(H, a, b);
    TopDeterminesLevel(H, x, y);
  }

  /** Two trees over equally many items with the same root end their builds in the
      same node. */
  lemma EqualRootsEqualTops(H: Hasher, a: seq<string>, b: seq<string>)
    requires |a| >= 1 && |a| == |b|
    requires RootHash(H, a) == RootHash(H, b)
    ensures |LevelsFrom(H, LeafHashes(H, a))[|LevelsFrom(H, LeafHashes(H, a))| - 1]| >= 1
    ensures |LevelsFrom(H, LeafHashes(H, b))[|LevelsFrom(H, LeafHashes(H, b))| - 1]| >= 1
    ensures LevelsFrom(H, LeafHashes(H, a))[|LevelsFrom(H, LeafHashes(H, a))| - 1][0] ==
            LevelsFrom(H, LeafHashes(H, b))[|LevelsFrom(H, LeafHashes(H, b))| - 1][0]
  {
    RootIsTop(H, a);
    RootIsTop(H, b);
  }

  /** The root is the one node at the top of the levels built from the leaf digests. */
  lemma RootIsTop(H: Hasher, data: seq<string>)
    requires |data| >= 1
    ensures |LevelsFrom(H, LeafHashes(H, data))[|LevelsFrom(H, LeafHashes(H, data))| - 1]| == 1
    ensures RootHash(H, data) == LevelsFrom(H, LeafHashes(H, data))[|LevelsFrom(H, LeafHashes(H, data))| - 1][0]
  {
    TopOfLevels(H, data);
    assert Levels(H, data) == LevelsFrom(H, LeafHashes(H, data));
  }

  /** The root depends on the order of the data: exchanging two different items
      changes the root (under an injective, length-uniform digest that gives the two
      items digests of one length, as SHA-256 gives every input). */
  lemma SwapChangesRoot(H: Hasher, data: seq<string>, p: nat, q: nat)
    requires Injective(H) && LengthUniform(H)
    requires p < |data| && q < |data| && data[p] != data[q]
    requires |H(data[p])| == |H(data[q])|
    ensures RootHash(H, data) != RootHash(H, Swapped(data, p, q))
  {
    var other := Swapped(data, p, q);
    forall i | 0 <= i < |data|
      ensures |H(data[i])| == |H(other[i])|
    {
      if i != p && i != q {
        assert other[i] == data[i];
      }
    }
    if RootHash(H, data) == RootHash(H, other) {
      var x := LeafHashes(H, data);
      var y := LeafHashes(H, other);
      RootDeterminesLeaves(H, data, other);
      assert H(data[p]) == x[p] == y[p] == H(data[q]);
      InjectiveAt(H, data[p], data[q]);
    }
  }

  /** The root of a two-item tree is the combination of the two leaf digests. */
  lemma TwoLeafRoot(H: Hasher, x: string, y: string)
    ensures RootHash(H, [x, y]) == CombineHashes(H, H(x), H(y))
  {
    var leaves := [H(x), H(y)];
    var top := [CombineHashes(H, H(x), H(y))];
    assert LeafHashes(H, [x, y]) == leaves;
    assert Parents(H, leaves) == top;
    assert LevelsFrom(H, top) == [top];
    assert LevelsFrom(H, leaves) == [leaves] + LevelsFrom(H, top);
  }

  /** Without domain separation, the one-leaf tree whose item is the concatenation of
      two digests has the same root as the two-leaf tree over the items. */
  lemma SecondPreimage(H: Hasher, x: string, y: string)
    ensures RootHash(H, [H(x) + H(y)]) == RootHash(H, [x, y])
  {
    var single := [H(H(x) + H(y))];
    assert LeafHashes(H, [H(x) + H(y)]) == single;
    assert LevelsFrom(H, single) == [single];
    TwoLeafRoot(H, x, y);
  }
}

=== FILE: wrappers.dfy ===
/** Option and Result values, used for the engine's "no value" and error returns. */
module Wrappers {

  /** A value that may be absent (Python's `None`). */
  datatype Option<+T> = None | Some(value: T)

  /** The outcome of an operation that may raise an error instead of returning. */
  datatype Result<+T, +E> = Ok(value: T) | Err(error: E)
}
